=== FILE: README.md ===
# Corsair HXi power-supply driver: transport, decoder and rail model in Dafny

This project models the core of `corsair-hxi-psu.c`, a Linux HID/hwmon driver
for the Corsair HX750i/HX850i/HX1000i/HX1200i power supplies. The supply
speaks a PMBus-like command set tunnelled through 63-byte HID output reports.
Its replies arrive asynchronously through the driver's raw-event hook.

The model has six modules:

- `Linear11` (`linear11.dfy`) models `decode_corsair_float`. It reads the
  16-bit LINEAR11 word of section 8.3.1 of Part II of the PMBus Specification
  v1.2: a 5-bit two's-complement exponent and an 11-bit two's-complement
  mantissa. The driver then adds two steps of its own: an odd mantissa is
  bumped by one, and the value is scaled ×1000 to milli-units. Shifts are
  modelled one bit at a time, and their contracts give their arithmetic
  meaning. For a negative exponent, the right shift by `(~e)+1` equals floor
  division by 2^-e.
- `Transport` (`transport.dfy`) models the session record: the single 63-byte
  buffer and the completion flag. It covers the outbound frame of
  `send_usb_cmd`, the drop-filter of `hxi_raw_event`, and the send/wait
  result. The send result and the wait outcome are inputs (`Exchange`). The
  wait outcome is either the first report the raw-event hook received or a
  timeout. The filter drops reports only while the completion is set, from
  the `complete()` of the first reply until the waiter wakes and consumes it.
  After that, and after a timeout, the next report is copied into the buffer.
- `Rails` (`rails.dfy`) models the rail table built in `hxi_probe`. This
  includes the `strncpy` labels and the zeroed current command of the wall
  rail.
- `Sensors` (`sensors.dfy`) models `get_temperature` and `get_data`. Each
  read returns the session, the trace of `(cmd, b1, b2)` commands sent, and
  the C return value.
- `Hwmon` (`hwmon.dfy`) models `hxi_read`, `hxi_write` and the channel table
  `hxi_info`. It also has `Poll`, which serves read requests one after
  another as the device mutex makes them.
- `Errno` (`errno.dfy`) holds the Linux error numbers used: ENODATA 61,
  EOPNOTSUPP 95 and ETIMEDOUT 110.

Bytes and 16-bit words are integer subtypes (`u8`, `u16`). So `input >> 11`
is `raw / 2048`, `input & 2047` is `raw % 2048`, and the cast `(u16) x` is
`x % 65536`.

Two facts about the code shape the model:

- The driver copies replies into the same 63-byte buffer it sends from, so a
  reply shorter than 4 bytes leaves the command's own zero bytes in bytes 2
  and 3.
- Raw 0x0001 decodes to 2000 because the odd mantissa 1 is bumped to 2
  (`DecodeExamples`).

The model also keeps one quirk of the source as written. On failure,
`get_data` jumps to its common exit and returns `decode_corsair_float((u16) ret)`,
not `ret` itself. An error code from -2 to -1024 therefore decodes to a
negative value, which `hxi_read` reports as -ENODATA. But -1 (an unknown
signal, or a send error of -1) decodes to 0, which `hxi_read` reports as a
valid reading of 0. The lemmas `ErrorCodeDecode`, `MinusOneReadsAsZero` and
`UnadvertisedCurrentReadsZero` show this.

## Model

| member | source | states |
|---|---|---|
| Linear11.Exponent | corsair-hxi-psu.c:168-173 | the exponent is the top 5 bits read as two's complement: it lies in -16..15 and agrees with the field modulo 32 |
| Linear11.Mantissa | corsair-hxi-psu.c:169-176 | the mantissa is the low 11 bits read as two's complement: it lies in -1024..1023 and agrees with the word modulo 2048 |
| Linear11.FieldsRoundTrip | corsair-hxi-psu.c:168-176 | field extraction is a bijection: encoding an exponent and mantissa and reading them back gives them back, and re-encoding the fields of any word gives the word |
| Linear11.BumpOdd | corsair-hxi-psu.c:177-179 | the bumped mantissa is even and is the mantissa or one more, for negative mantissas too |
| Linear11.Significand | corsair-hxi-psu.c:168-179 | the mantissa actually scaled is even and lies in -1024..1024 |
| Linear11.ShiftLeft | corsair-hxi-psu.c:184-185 | a left shift by n multiplies by 2^n |
| Linear11.ShiftRight | corsair-hxi-psu.c:182-183 | an arithmetic right shift by n is floor division by 2^n: r·2^n <= x < (r+1)·2^n |
| Linear11.Decode | corsair-hxi-psu.c:165-188 | the reading is the scaled mantissa times 2^e for e >= 0, and its floor quotient by 2^-e for e < 0 |
| Linear11.DecodeAgainstStandard | corsair-hxi-psu.c:156-188 | against the standard value Y·2^N rounded down to whole milli-units: equal for even mantissas, never less, and one mantissa step more for odd mantissas with e >= 0 |
| Linear11.DecodeSign | corsair-hxi-psu.c:165-188 | a reading is negative exactly when the mantissa is -2 or below; mantissas 0 and -1 read 0 |
| Linear11.DecodeBound | corsair-hxi-psu.c:181-187 | every reading lies within ±33554432000 |
| Linear11.DecodeFitsInt32 | corsair-hxi-psu.c:181-187 | the scaled mantissa always fits a 32-bit int; the reading fits as well whenever the exponent is at most 11 |
| Linear11.ErrorCodeDecode | corsair-hxi-psu.c:237-239 | an error code from -1 to -1024 cast to u16 decodes to the bumped code times 500: negative from -2 down, 0 for -1 |
| Linear11.DecodeExamples | corsair-hxi-psu.c:165-188 | exponent fields 16, 31 and 15 read -16, -1 and 15; 0x0000 reads 0, 0x0001 reads 2000, 0xFFFF reads 0, 0xD300 reads 12000 |
| Linear11.ToU16 | corsair-hxi-psu.c:239 | the cast to u16 is reduction modulo 65536 and keeps values already in range |
| Linear11.Wrap32 | corsair-hxi-psu.c:181-186 | a result in the C int is in 32-bit range, congruent to the true value modulo 2^32, and equal to it when it fits |
| Linear11.DecodeAsBuilt | corsair-hxi-psu.c:181-187 | the C int the decoder returns is 32-bit and congruent to the true reading modulo 2^32, so for exponents 12..15 it holds the wrapped reading; it equals the true reading whenever the exponent is at most 11 |
| Linear11.DecodeAsBuiltSignFlip | corsair-hxi-psu.c:184-185 | raw 0x63FF (exponent 12, mantissa 1023) reads 4194304000 but the C int holds -100663296 |
| Transport.Copied | corsair-hxi-psu.c:124 | a report puts at most 16 bytes into the buffer, and all of it when shorter |
| Transport.Frame | corsair-hxi-psu.c:93-96 | the outbound report has the command in bytes 0, 1 and 2 and zero in every other byte |
| Transport.FrameRoundTrip | corsair-hxi-psu.c:93-96 | the device reads back the command that was framed, and a buffer is a frame exactly when its padding is zero |
| Transport.RawEvent | corsair-hxi-psu.c:115-129 | the hook returns 0; once the completion has fired, the session is unchanged; otherwise the first min(16, size) bytes become the report, the rest stay, and the completion fires |
| Transport.FirstReportWins | corsair-hxi-psu.c:119-125 | of reports arriving in a row with no waiter consuming the completion in between, only the first reaches the buffer; while the completion is set all are dropped |
| Transport.SendUsbCmd | corsair-hxi-psu.c:88-113 | the result is 0 exactly when the send succeeds and a report completes the wait; a failed send is returned unchanged and a missing reply gives -ETIMEDOUT; the completion is clear afterwards whatever the outcome, since a successful wait consumes it; on success the buffer is the report over the frame, otherwise the frame alone |
| Transport.SendForgetsHistory | corsair-hxi-psu.c:93-98 | a command's outcome does not depend on the session before it, including stray reports delivered before it |
| Transport.LateReplyAfterTimeout | corsair-hxi-psu.c:98-125 | after a timeout the completion has not fired, so a late reply is still copied in and completes it |
| Transport.ReportAfterSuccessIsCopied | corsair-hxi-psu.c:104-125 | after a successful command the waiter has consumed the completion, so the next report is copied over the reply and completes it again |
| Rails.StrNCpy | corsair-hxi-psu.c:427-430 | the label array holds the string cut to n characters, padded with NULs to exactly n |
| Rails.LabelRoundTrip | corsair-hxi-psu.c:427-430 | a string shorter than the array reads back unchanged from it |
| Rails.RailTable | corsair-hxi-psu.c:414-430 | the table after probe: rails 0..2 select sensors 0, 1, 2 with 0x8B/0x8C/0x96; rail 3 is unswitched with 0x88, current command 0 and 0xEE; every label is 8 bytes and reads "12V", "5V", "3V", "Wall" |
| Rails.InitRails | corsair-hxi-psu.c:414-430 | the loop over the zeroed rails, then the per-rail assignments and strncpy labels, build exactly `RailTable`: rails 0..2 with sensors 0, 1, 2 and 0x8B/0x8C/0x96, rail 3 unswitched with 0x88, current command 0 and 0xEE, labels "12V", "5V", "3V", "Wall" |
| Rails.RailTableIntegrity | corsair-hxi-psu.c:414-430 | only the last rail is unswitched, the four sensors differ, and every label leaves room for its terminator |
| Sensors.Word | corsair-hxi-psu.c:149 | the word's high byte is the first operand and its low byte the second |
| Sensors.GetTemperature | corsair-hxi-psu.c:136-154 | one read command, 0x8E for channel 1 and 0x8D otherwise; -ENODATA exactly when it fails, otherwise the big-endian word of reply bytes 2 and 3, in 0..65535 |
| Sensors.SelectStep | corsair-hxi-psu.c:200-212 | sensors 0..2 send the select (0x02, 0, sensor) and succeed with it, else return the send error or -ETIMEDOUT; unswitched sends nothing and succeeds; any other sensor sends nothing and gives -EOPNOTSUPP |
| Sensors.SignalStep | corsair-hxi-psu.c:216-227 | the five accepted signals send (0x03, sig, 0) and return the send error, -ETIMEDOUT or 0; any other sends nothing and gives -1; on success bytes 2 and 3 are the reply's |
| Sensors.GetData | corsair-hxi-psu.c:196-240 | the trace is the select (for sensors 0..2), then the read exactly when the select succeeded and the signal is accepted; on success the value is the decoded little-endian reply word; a failed select or read, or an unknown sensor, yields its error code cast to u16 and decoded; a failure with codes -2..-1024 reads negative; an unaccepted signal reads 0 |
| Sensors.ErrorDecodes | corsair-hxi-psu.c:239 | a decoded error code from -2 to -1024 is negative, and -1 decodes to 0 |
| Hwmon.HxiRead | corsair-hxi-psu.c:271-345 | errors are only -ENODATA or -EOPNOTSUPP; an unsupported type or attribute sends nothing and leaves the session alone; a rail read yields -ENODATA exactly when get_data returns a negative value, and otherwise that value (×1000 for power); values are non-negative and fit 64 bits; a temperature read fails exactly when its command fails and otherwise yields get_temperature's word; the session is the one get_temperature or get_data leaves |
| Hwmon.Report | corsair-hxi-psu.c:296-333 | a negative get_data result becomes -ENODATA and nothing else does; a value passes through, multiplied by 1000 for power, and is non-negative and within 64 bits |
| Hwmon.Channels | corsair-hxi-psu.c:365-389 | the chip registers a thermal zone; 2 temperature channels carry an input only; 4 voltage, 3 current (one fewer than the rails) and 4 power channels carry an input and a label each |
| Hwmon.HxiWrite | corsair-hxi-psu.c:347-351 | every write is refused with -EOPNOTSUPP |
| Hwmon.ChannelsMatchRails | corsair-hxi-psu.c:365-389 | a rail channel is advertised for input exactly when its rail command is one get_data accepts; advertised rail channels index a valid rail; labels exist only on rail channels |
| Hwmon.ReadRailSuccess | corsair-hxi-psu.c:293-337 | when its commands complete, a rail read sends select then read back to back and yields the decoded reply (×1000 for power), or -ENODATA exactly when the mantissa is -2 or below |
| Hwmon.ReadRailFailure | corsair-hxi-psu.c:293-337 | a rail read whose select or read fails by send error or timeout yields -ENODATA |
| Hwmon.MinusOneReadsAsZero | corsair-hxi-psu.c:213-239 | a 12V select whose send fails with -1 reads as a valid 0 |
| Hwmon.UnadvertisedCurrentReadsZero | corsair-hxi-psu.c:308-321 | current channel 3 is not advertised, and reading it sends nothing and yields a valid 0 |
| Hwmon.ReadTraceShape | corsair-hxi-psu.c:196-240 | a single read's commands never start with a DC-rail read, and each DC-rail read directly follows a select |
| Hwmon.SelectImmediatelyPrecedesRailRead | corsair-hxi-psu.c:199-238 | over any sequence of reads, every read of a DC-rail signal is sent immediately after a rail select |
| Hwmon.PowerAsBuilt | corsair-hxi-psu.c:332 | the int product `data * 1000` is 32-bit and congruent to the true product modulo 2^32, so an overflowing product holds its wrapped value; it equals the true product when that fits |
| Hwmon.PowerScaleOverflow | corsair-hxi-psu.c:331-333 | a 4096 W reading (raw 0x13FF) fits the int, but its scaled power wraps to -198967296 |

## Findings

| source | as written | input that shows it | evidently intended | confidence | as-written member | corrected member |
|---|---|---|---|---|---|---|
| corsair-hxi-psu.c:181-187 | `fraction << exponent` is computed in a 32-bit `int` | raw 0x63FF (exponent 12, mantissa 1023) wraps to -100663296, which `hxi_read` reports as -ENODATA (`Linear11.DecodeAsBuiltSignFlip`) | the reading 4194304000 milli-units, whose sign is the mantissa's | not executed; exponents 12..15 are far above any reading these supplies produce | Linear11.DecodeAsBuilt | Linear11.Decode |
| corsair-hxi-psu.c:332 | `data * 1000` multiplies two `int`s before widening to `long` | raw 0x13FF, a 4096 W power reading, scales to -198967296 µW (`Hwmon.PowerScaleOverflow`) | 4096000000 µW in the `long` result | not executed; needs a power reading above 2147 W | Hwmon.PowerAsBuilt | Hwmon.HxiRead |

Everything outside the two as-built members uses the corrected, unbounded
arithmetic.

## Left out

- Concurrency: the mutex, the completion wake-up and the 300 ms timeout are not modelled. Each command's send result and wait outcome are inputs, and reads are served one at a time (`Poll`). The lock held across select and read shows only as adjacent commands in the trace. Interleaving with another user of the device, such as a hidraw client, is not modelled.
- HID and hwmon plumbing are foreign kernel calls and are left out: `hid_hw_output_report` (its result is an input), `hid_parse`, `hid_hw_start`, `hid_hw_open`, `hid_device_io_start`, `hwmon_device_register_with_info` and `hxi_remove`.
- Module init and exit, `late_initcall`, the USB device-ID table and the `MODULE_*` metadata are registration boilerplate and are left out.
- `hxi_read_string` and `hxi_is_visible` are left out. They depend on hwmon attribute enum values from headers that are not part of this model. Attributes are modelled by role (input, label, register-tz).
- The allocation-failure paths of `hxi_probe` are left out.
- Hwmon.HxiRead: for voltage, current and power it requires the channel to index the rail table. The monitoring core only asks for advertised channels (`ChannelsMatchRails`); in C an out-of-range channel reads past the array.
- Transport.RawEvent: the report length is the sequence length, so the negative `size` the C signature allows is not modelled.
- Sensors.GetData: the failure value is stated exactly (the decoded error code), but the clause that it is negative covers send errors -2..-1024 only. -1 reads as 0 (`MinusOneReadsAsZero`), and some codes below -1024 decode positive.
- Hwmon.ReadRailFailure: for the same reason it assumes send errors in -2..-1024.

=== FILE: errno.dfy ===
/**
 * The Linux error numbers the driver returns (asm-generic/errno.h values).
 * Functions report an error as the negated number, as kernel code does.
 */
module Errno {
  const ENODATA := 61
  const EOPNOTSUPP := 95
  const ETIMEDOUT := 110
}

=== FILE: hwmon.dfy ===
/**
 * The sensor-monitoring face of the driver: the advertised channels, the read
 * entry point that maps a (type, attribute, channel) request onto the rail
 * table and the measurement reads, and the write entry point.
 */
module Hwmon {
  import opened Errno
  import opened Linear11
  import opened Transport
  import opened Rails
  import opened Sensors

  datatype SensorType = Chip | Temp | In | Curr | Power | OtherType

  /** Attributes by role; each sensor type has its own input and label codes. */
  datatype Attr = Input | Label | RegisterTz | OtherAttr

  /** A read either yields a value for the caller or fails with a negative error. */
  datatype Outcome = Value(val: int) | Error(ret: int)

  datatype ReadResult = ReadResult(session: Session, trace: seq<Command>, outcome: Outcome)

  /**
   * The channel descriptors of hxi_info: per type, the attributes of each
   * channel. The chip registers a thermal zone; two temperatures carry an
   * input only; four voltages, three currents and four powers carry an input
   * and a label each.
   */
  function Channels(t: SensorType): (cs: seq<set<Attr>>)
    ensures t == Chip ==> cs == [{RegisterTz}]
    ensures t == Temp ==> |cs| == 2
    ensures t == In || t == Power ==> |cs| == NumRails
    ensures t == Curr ==> |cs| == NumRails - 1
    ensures t == Temp ==> forall i :: 0 <= i < |cs| ==> cs[i] == {Input}
    ensures RailMeasurement(t) ==> forall i :: 0 <= i < |cs| ==> cs[i] == {Input, Label}
    ensures t == OtherType ==> cs == []
  {
    match t
    case Chip => [{RegisterTz}]
    case Temp => [{Input}, {Input}]
    case In => [{Input, Label}, {Input, Label}, {Input, Label}, {Input, Label}]
    case Curr => [{Input, Label}, {Input, Label}, {Input, Label}]
    case Power => [{Input, Label}, {Input, Label}, {Input, Label}, {Input, Label}]
    case OtherType => []
  }

  predicate Advertised(t: SensorType, attr: Attr, channel: int) {
    0 <= channel < |Channels(t)| && attr in Channels(t)[channel]
  }

  predicate RailMeasurement(t: SensorType) {
    t == In || t == Curr || t == Power
  }

  /** The signal command a rail uses for a measurement type. */
  function RailCommand(rail: Rail, t: SensorType): int
    requires RailMeasurement(t)
  {
    match t
    case In => rail.voltCmd
    case Curr => rail.ampCmd
    case Power => rail.powerCmd
  }

  /**
   * hxi_read. The monitoring core only asks for advertised channels, which is
   * what keeps the rail index in bounds. A negative measurement becomes
   * -ENODATA; power is scaled by 1000 on top of the decoder's milli-units.
   */
  function HxiRead(s: Session, rails: seq<Rail>, t: SensorType, attr: Attr, channel: int,
                   select: Exchange, read: Exchange): (r: ReadResult)
    requires |rails| == NumRails
    requires RailMeasurement(t) && attr == Input ==> 0 <= channel < NumRails
    ensures r.outcome.Error? ==> r.outcome.ret == -ENODATA || r.outcome.ret == -EOPNOTSUPP
    ensures r.outcome.Value? ==> 0 <= r.outcome.val && InInt64(r.outcome.val)
    ensures attr != Input || !(t == Temp || RailMeasurement(t)) ==>
              r == ReadResult(s, [], Error(-EOPNOTSUPP))
    ensures t == Power && r.outcome.Value? ==> r.outcome.val % 1000 == 0
    ensures t == Temp && attr == Input ==>
              var g := GetTemperature(s, channel, read);
              && r.trace == g.trace
              && r.session == g.session
              && (r.outcome == Error(-ENODATA) <==> !Succeeds(read))
              && (Succeeds(read) ==> r.outcome == Value(g.value))
    ensures RailMeasurement(t) && attr == Input ==>
              var g := GetData(s, rails[channel].sensor, RailCommand(rails[channel], t), select, read);
              && r.trace == g.trace
              && r.session == g.session
              && (r.outcome == Error(-ENODATA) <==> g.value < 0)
              && (r.outcome.Value? ==> r.outcome.val == (if t == Power then 1000 else 1) * g.value)
  {
    if attr != Input then ReadResult(s, [], Error(-EOPNOTSUPP))
    else if t == Temp then
      var g := GetTemperature(s, channel, read);
      if g.value < 0 then ReadResult(g.session, g.trace, Error(-ENODATA))
      else ReadResult(g.session, g.trace, Value(g.value))
    else if RailMeasurement(t) then
      Report(GetData(s, rails[channel].sensor, RailCommand(rails[channel], t), select, read), t)
    else ReadResult(s, [], Error(-EOPNOTSUPP))
  }

  /**
   * How hxi_read reports a get_data result for a measurement type: a negative
   * value is no data; otherwise the value, scaled by 1000 for power.
   */
  function Report(g: Reading, t: SensorType): (r: ReadResult)
    requires -33_554_432_000 <= g.value <= 33_554_432_000
    ensures r.trace == g.trace && r.session == g.session
    ensures r.outcome.Error? ==> r.outcome.ret == -ENODATA
    ensures r.outcome.Error? <==> g.value < 0
    ensures r.outcome.Value? ==> r.outcome.val == (if t == Power then 1000 else 1) * g.value
    ensures r.outcome.Value? ==> 0 <= r.outcome.val && InInt64(r.outcome.val)
    ensures t == Power && r.outcome.Value? ==> r.outcome.val % 1000 == 0
  {
    if g.value < 0 then ReadResult(g.session, g.trace, Error(-ENODATA))
    else ReadResult(g.session, g.trace, Value(if t == Power then g.value * 1000 else g.value))
  }

  /** hxi_write: every write is refused. */
  function HxiWrite(t: SensorType, attr: Attr, channel: int, val: int): (ret: int)
    ensures ret == -EOPNOTSUPP
  {
    -EOPNOTSUPP
  }

  /**
   * The advertised channels and the rail table agree: a rail channel is
   * advertised for input exactly when its command is one get_data sends, and
   * labels are advertised only on rail channels.
   */
  lemma ChannelsMatchRails(t: SensorType, channel: int)
    ensures Advertised(t, Input, channel) && RailMeasurement(t) ==>
              0 <= channel < NumRails &&
              (Switched(RailTable()[channel].sensor) || RailTable()[channel].sensor == Unswitched)
    ensures RailMeasurement(t) && 0 <= channel < NumRails ==>
              (Advertised(t, Input, channel) <==> Accepted(RailCommand(RailTable()[channel], t)))
    ensures Advertised(t, Input, channel) ==> t == Temp || RailMeasurement(t)
    ensures Advertised(t, Label, channel) ==> RailMeasurement(t) && 0 <= channel < NumRails
  {
  }

  /** The reply word of a read: bytes 3 and 2 of the report, little-endian. */
  function ReplyWord(read: Exchange): u16
    requires read.wait.Completed?
  {
    Word(ReplyByte(read.wait.report, 3), ReplyByte(read.wait.report, 2))
  }

  /**
   * A rail read whose commands all complete: the select (for a DC rail) and
   * the read go out back to back, and the caller gets the decoded reply --
   * times 1000 for power -- unless it is negative, which reads as no data.
   */
  lemma ReadRailSuccess(s: Session, t: SensorType, channel: int, select: Exchange, read: Exchange)
    requires RailMeasurement(t) && Advertised(t, Input, channel)
    requires Succeeds(read) && (channel < NumRails - 1 ==> Succeeds(select))
    ensures var r := HxiRead(s, RailTable(), t, Input, channel, select, read);
            var rail := RailTable()[channel];
            var d := Decode(ReplyWord(read));
            && r.trace == (if channel < NumRails - 1 then [SelectCommand(channel)] else [])
                          + [ReadCommand(RailCommand(rail, t))]
            && r.outcome == (if d < 0 then Error(-ENODATA) else Value(if t == Power then d * 1000 else d))
            && (r.outcome.Error? <==> Mantissa(ReplyWord(read)) <= -2)
  {
    ChannelsMatchRails(t, channel);
    DecodeSign(ReplyWord(read));
  }

  /**
   * A rail read whose select or read command fails -- by a send error or a
   * timeout -- reads as no data, provided the send error is one the decoder
   * turns negative.
   */
  lemma ReadRailFailure(s: Session, t: SensorType, channel: int, select: Exchange, read: Exchange)
    requires RailMeasurement(t) && Advertised(t, Input, channel)
    requires DecodesNegative(select) && DecodesNegative(read)
    requires !Succeeds(read) || (channel < NumRails - 1 && !Succeeds(select))
    ensures HxiRead(s, RailTable(), t, Input, channel, select, read).outcome == Error(-ENODATA)
  {
    ChannelsMatchRails(t, channel);
  }

  /**
   * The error path of get_data decodes the error code: a select that fails with
   * -1 reads as a valid 0 mV instead of no data.
   */
  lemma MinusOneReadsAsZero(s: Session, read: Exchange)
    ensures HxiRead(s, RailTable(), In, Input, 0, Exchange(-1, TimedOut), read).outcome == Value(0)
  {
    ErrorDecodes(-1);
  }

  /**
   * The current channel the table does not advertise would read the wall
   * rail's zero current command, which get_data refuses with -1 -- decoded
   * as a valid 0 mA, without any command being sent.
   */
  lemma UnadvertisedCurrentReadsZero(s: Session, select: Exchange, read: Exchange)
    ensures !Advertised(Curr, Input, 3)
    ensures HxiRead(s, RailTable(), Curr, Input, 3, select, read) == ReadResult(s, [], Value(0))
  {
    ErrorDecodes(-1);
  }

  /** One read request of the monitoring core, with the environment's answers to its commands. */
  datatype Request = Request(t: SensorType, attr: Attr, channel: int, select: Exchange, read: Exchange)

  predicate InBounds(q: Request) {
    RailMeasurement(q.t) && q.attr == Input ==> 0 <= q.channel < NumRails
  }

  /** Read requests served one at a time, as the device lock forces them to be. */
  function Poll(s: Session, reqs: seq<Request>): (r: (Session, seq<Command>))
    requires forall i :: 0 <= i < |reqs| ==> InBounds(reqs[i])
    decreases |reqs|
  {
    if |reqs| == 0 then (s, [])
    else
      var q := reqs[0];
      assert InBounds(q);
      var one := HxiRead(s, RailTable(), q.t, q.attr, q.channel, q.select, q.read);
      var rest := Poll(one.session, reqs[1..]);
      (rest.0, one.trace + rest.1)
  }

  /** A read of a signal the DC rails share, which means whatever rail was selected last. */
  predicate IsRailRead(c: Command) {
    c.code == ReadSignal && (c.b1 == SigVolts || c.b1 == SigAmps || c.b1 == SigWatts)
  }

  predicate IsSelect(c: Command) {
    c.code == SelectRail && c.b1 == 0 && Switched(c.b2)
  }

  predicate SelectsPrecede(trace: seq<Command>) {
    forall i :: 0 <= i < |trace| && IsRailRead(trace[i]) ==> 0 < i && IsSelect(trace[i - 1])
  }

  /** The commands of one read: never led by a rail read, and every rail read right after a select. */
  lemma ReadTraceShape(s: Session, q: Request)
    requires InBounds(q)
    ensures var tr := HxiRead(s, RailTable(), q.t, q.attr, q.channel, q.select, q.read).trace;
            SelectsPrecede(tr) && (|tr| > 0 ==> !IsRailRead(tr[0]))
  {
    if q.attr == Input && RailMeasurement(q.t) {
      var tr := HxiRead(s, RailTable(), q.t, q.attr, q.channel, q.select, q.read).trace;
      var rail := RailTable()[q.channel];
      if q.channel < NumRails - 1 {
        assert tr[0] == SelectCommand(rail.sensor);
      } else {
        assert |tr| <= 1;
      }
    }
  }

  lemma ConcatSelectsPrecede(a: seq<Command>, b: seq<Command>)
    requires SelectsPrecede(a) && SelectsPrecede(b) && (|b| > 0 ==> !IsRailRead(b[0]))
    ensures SelectsPrecede(a + b)
    ensures (|a| > 0 ==> !IsRailRead(a[0])) ==> (|a + b| > 0 ==> !IsRailRead((a + b)[0]))
  {
    var ab := a + b;
    forall i | 0 <= i < |ab| && IsRailRead(ab[i])
      ensures 0 < i && IsSelect(ab[i - 1])
    {
      if i >= |a| {
        assert ab[i] == b[i - |a|];
        assert ab[i - 1] == b[i - 1 - |a|];
      } else {
        assert ab[i] == a[i];
      }
    }
  }

  /**
   * However many reads are served in a row, each read of a DC-rail signal is
   * sent immediately after a rail select: the select and the read it belongs
   * to are never split by another command.
   */
  lemma {:induction false} SelectImmediatelyPrecedesRailRead(s: Session, reqs: seq<Request>)
    requires forall i :: 0 <= i < |reqs| ==> InBounds(reqs[i])
    ensures SelectsPrecede(Poll(s, reqs).1)
    ensures |Poll(s, reqs).1| > 0 ==> !IsRailRead(Poll(s, reqs).1[0])
    decreases |reqs|
  {
    if |reqs| > 0 {
      var q := reqs[0];
      var one := HxiRead(s, RailTable(), q.t, q.attr, q.channel, q.select, q.read);
      ReadTraceShape(s, q);
      SelectImmediatelyPrecedesRailRead(one.session, reqs[1..]);
      ConcatSelectsPrecede(one.trace, Poll(one.session, reqs[1..]).1);
    }
  }

  /**
   * hxi_read's `data * 1000` as built: an int product, wrapping once the
   * reading passes 2147483 mW.
   */
  function PowerAsBuilt(data: int): (r: int)
    ensures InInt32(r)
    ensures (r - data * 1000) % 0x1_0000_0000 == 0
    ensures InInt32(data * 1000) ==> r == data * 1000
  {
    Wrap32(data * 1000)
  }

  /** A 4096 W reading fits the decoder's int but its scaled power wraps negative. */
  lemma PowerScaleOverflow()
    ensures Decode(0x13FF) == 4_096_000 && InInt32(Decode(0x13FF))
    ensures PowerAsBuilt(Decode(0x13FF)) == -198_967_296
  {
    assert Pow2(2) == 4;
  }
}

=== FILE: linear11.dfy ===
/**
 * The 16-bit "linear" floating format the power supply uses for voltage,
 * current and power readings (LINEAR11, section 8.3.1 of Part II of the PMBus
 * Specification v1.2): a 5-bit two's-complement exponent N in the top bits and
 * an 11-bit two's-complement mantissa Y below it, standing for Y * 2^N.
 *
 * The driver's decoder departs from the standard in two ways, both modelled
 * exactly: an odd mantissa is bumped up by one, and the value is scaled by
 * 1000 to milli-units. Arithmetic is on unbounded integers; where the C `int`
 * the driver computes in would wrap, that is stated separately (`DecodeAsBuilt`).
 */
module Linear11 {

  /** An unsigned 16-bit C value. */
  type u16 = x: int | 0 <= x < 0x1_0000

  const Int32Min := -0x8000_0000
  const Int32Max := 0x7FFF_FFFF
  const Int64Min := -0x8000_0000_0000_0000
  const Int64Max := 0x7FFF_FFFF_FFFF_FFFF

  predicate InInt32(x: int) { Int32Min <= x <= Int32Max }
  predicate InInt64(x: int) { Int64Min <= x <= Int64Max }

  function Pow2(n: nat): (r: nat)
    ensures r >= 1
  {
    if n == 0 then 1 else 2 * Pow2(n - 1)
  }

  lemma {:induction false} Pow2Monotonic(a: nat, b: nat)
    requires a <= b
    ensures Pow2(a) <= Pow2(b)
  {
    if a < b {
      Pow2Monotonic(a, b - 1);
    }
  }

  /** The C conversion `(u16) x` of a (possibly negative) int: reduction modulo 2^16. */
  function ToU16(x: int): (r: u16)
    ensures (r - x) % 0x1_0000 == 0
    ensures 0 <= x < 0x1_0000 ==> r == x
  {
    x % 0x1_0000
  }

  /** The exponent field `input >> 11`, read as a 5-bit two's-complement number. */
  function Exponent(raw: u16): (e: int)
    ensures -16 <= e <= 15
    ensures (e - raw / 2048) % 32 == 0
  {
    var field := raw / 2048;
    if field > 15 then -(32 - field) else field
  }

  /** The mantissa field `input & 2047`, read as an 11-bit two's-complement number. */
  function Mantissa(raw: u16): (m: int)
    ensures -1024 <= m <= 1023
    ensures (m - raw) % 2048 == 0
  {
    var field := raw % 2048;
    if field > 1023 then -(2048 - field) else field
  }

  /** The standard's encoding of an exponent and a mantissa into one word. */
  function Encode(e: int, m: int): (raw: u16)
    requires -16 <= e <= 15 && -1024 <= m <= 1023
  {
    (e % 32) * 2048 + m % 2048
  }

  /** Field extraction and encoding are inverse to each other. */
  lemma FieldsRoundTrip(e: int, m: int, raw: u16)
    requires -16 <= e <= 15 && -1024 <= m <= 1023
    ensures Exponent(Encode(e, m)) == e && Mantissa(Encode(e, m)) == m
    ensures Encode(Exponent(raw), Mantissa(raw)) == raw
  {
  }

  /**
   * The driver's `if (fraction & 1) fraction++`. On a two's-complement int the
   * low bit is the parity for negative values too, so -3 becomes -2.
   */
  function BumpOdd(m: int): (r: int)
    ensures r % 2 == 0
    ensures r == m || r == m + 1
  {
    if m % 2 == 1 then m + 1 else m
  }

  /** The mantissa the decoder actually scales: the field with an odd value bumped. */
  function Significand(raw: u16): (y: int)
    ensures -1024 <= y <= 1024 && y % 2 == 0
  {
    BumpOdd(Mantissa(raw))
  }

  /** `x << n` on an int, one bit at a time (no wrap-around: see `DecodeAsBuilt`). */
  function ShiftLeft(x: int, n: nat): (r: int)
    ensures r == x * Pow2(n)
  {
    if n == 0 then x else 2 * ShiftLeft(x, n - 1)
  }

  /**
   * `x >> n` on a signed int, one bit at a time. Each step is an arithmetic
   * shift by one, which rounds toward minus infinity, as Dafny's `/ 2` does.
   */
  function ShiftRight(x: int, n: nat): (r: int)
    ensures r * Pow2(n) <= x < (r + 1) * Pow2(n)
    decreases n
  {
    if n == 0 then x
    else
      var h := x / 2;
      var r := ShiftRight(h, n - 1);
      assert r * Pow2(n) <= 2 * h by {
        assert r * Pow2(n) == 2 * (r * Pow2(n - 1));
      }
      assert x < (r + 1) * Pow2(n) by {
        assert h + 1 <= (r + 1) * Pow2(n - 1);
        assert (r + 1) * Pow2(n) == 2 * ((r + 1) * Pow2(n - 1));
      }
      r
  }

  /**
   * decode_corsair_float: the reading in milli-units. For a negative exponent
   * the scaled mantissa is shifted right by `(~e) + 1`, which is `-e`.
   * The result is the scaled mantissa times 2^e, rounded toward minus infinity.
   */
  function Decode(raw: u16): (r: int)
    ensures Exponent(raw) >= 0 ==> r == Significand(raw) * 1000 * Pow2(Exponent(raw))
    ensures Exponent(raw) < 0 ==>
              r * Pow2(-Exponent(raw)) <= Significand(raw) * 1000 < (r + 1) * Pow2(-Exponent(raw))
  {
    var fraction := Significand(raw) * 1000;
    var e := Exponent(raw);
    if e < 0 then ShiftRight(fraction, -e) else ShiftLeft(fraction, e)
  }

  /** The standard's LINEAR11 value Y * 2^N in milli-units, rounded toward minus infinity. */
  function StandardMilli(raw: u16): int
  {
    var e := Exponent(raw);
    if e < 0 then Mantissa(raw) * 1000 / Pow2(-e) else Mantissa(raw) * 1000 * Pow2(e)
  }

  /**
   * The bump is the only departure from the standard: an even mantissa decodes
   * to the standard value, an odd one never to less, and with a non-negative
   * exponent to exactly one mantissa step (1000 * 2^e milli-units) more.
   */
  lemma DecodeAgainstStandard(raw: u16)
    ensures Mantissa(raw) % 2 == 0 ==> Decode(raw) == StandardMilli(raw)
    ensures Decode(raw) >= StandardMilli(raw)
    ensures Exponent(raw) >= 0 && Mantissa(raw) % 2 == 1 ==>
              Decode(raw) == StandardMilli(raw) + 1000 * Pow2(Exponent(raw))
  {
    if Exponent(raw) < 0 {
      BumpAgainstFloor(raw);
    } else {
      BumpAgainstProduct(raw);
    }
  }

  lemma BumpAgainstFloor(raw: u16)
    requires Exponent(raw) < 0
    ensures Mantissa(raw) % 2 == 0 ==> Decode(raw) == StandardMilli(raw)
    ensures Decode(raw) >= StandardMilli(raw)
  {
    var m := Mantissa(raw);
    var r := Decode(raw);
    var d := Pow2(-Exponent(raw));
    var q := m * 1000 / d;
    assert StandardMilli(raw) == q;
    FloorDiv(m * 1000, d);
    assert r * d <= Significand(raw) * 1000 < (r + 1) * d;
    if m % 2 == 0 {
      FloorUnique(m * 1000, d, q, r);
    } else {
      FactorLess(q, r + 1, d);
    }
  }

  lemma BumpAgainstProduct(raw: u16)
    requires Exponent(raw) >= 0
    ensures Mantissa(raw) % 2 == 0 ==> Decode(raw) == StandardMilli(raw)
    ensures Mantissa(raw) % 2 == 1 ==> Decode(raw) == StandardMilli(raw) + 1000 * Pow2(Exponent(raw))
  {
    var m := Mantissa(raw);
    var p := Pow2(Exponent(raw));
    assert Decode(raw) == (Significand(raw) * 1000) * p;
    assert StandardMilli(raw) == (m * 1000) * p;
    if m % 2 == 1 {
      assert Significand(raw) * 1000 == m * 1000 + 1000;
      assert (m * 1000 + 1000) * p == (m * 1000) * p + 1000 * p;
    }
  }

  lemma FloorDiv(x: int, d: int)
    requires d >= 1
    ensures (x / d) * d <= x < (x / d + 1) * d
  {
  }

  lemma FactorLess(a: int, b: int, d: int)
    requires d > 0 && a * d < b * d
    ensures a < b
  {
  }

  lemma FloorUnique(x: int, d: int, q: int, r: int)
    requires d > 0
    requires q * d <= x < (q + 1) * d
    requires r * d <= x < (r + 1) * d
    ensures q == r
  {
    FactorLess(q, r + 1, d);
    FactorLess(r, q + 1, d);
  }

  lemma MulMonotonic(a: int, d: int)
    requires d >= 1
    ensures a >= 0 ==> a * d >= a
    ensures a <= 0 ==> a * d <= a
  {
    assert a * d == a * (d - 1) + a;
    if a >= 0 {
      assert a * (d - 1) >= 0;
    } else {
      assert a * (d - 1) <= 0;
    }
  }

  /** A floor quotient by a positive divisor keeps the sign and does not grow in magnitude. */
  lemma FloorShrinks(y: int, d: int, r: int)
    requires d >= 1
    requires r * d <= y < (r + 1) * d
    ensures y < 0 ==> y <= r < 0
    ensures y >= 0 ==> 0 <= r <= y
  {
    if r >= 0 {
      MulMonotonic(r, d);
    }
    if r + 1 <= 0 {
      MulMonotonic(r + 1, d);
    }
  }

  lemma MulBound(y: int, p: int, c: int, q: int)
    requires -c <= y <= c && 1 <= p <= q
    ensures -c * q <= y * p <= c * q
  {
    if y >= 0 {
      assert y * p <= c * p <= c * q;
    } else {
      assert y * p >= -c * p >= -c * q;
    }
  }

  /** A reading is negative exactly when the mantissa is -2 or below; -1 is bumped to 0. */
  lemma DecodeSign(raw: u16)
    ensures Decode(raw) < 0 <==> Mantissa(raw) <= -2
    ensures Mantissa(raw) == 0 || Mantissa(raw) == -1 ==> Decode(raw) == 0
  {
    var e := Exponent(raw);
    var y := Significand(raw) * 1000;
    var r := Decode(raw);
    assert y < 0 <==> Mantissa(raw) <= -2;
    if e < 0 {
      FloorShrinks(y, Pow2(-e), r);
    } else {
      assert r == y * Pow2(e);
      MulMonotonic(y, Pow2(e));
    }
  }

  /** The magnitude of a reading before any exponent larger than `k` is applied. */
  lemma DecodeBoundBy(raw: u16, k: nat)
    requires Exponent(raw) <= k
    ensures -1_024_000 * Pow2(k) <= Decode(raw) <= 1_024_000 * Pow2(k)
  {
    var e := Exponent(raw);
    var y := Significand(raw) * 1000;
    var r := Decode(raw);
    if e < 0 {
      FloorShrinks(y, Pow2(-e), r);
      MulMonotonic(1_024_000, Pow2(k));
    } else {
      Pow2Monotonic(e, k);
      MulBound(y, Pow2(e), 1_024_000, Pow2(k));
    }
  }

  /** Every reading lies within +-1024 * 1000 * 2^15 milli-units. */
  lemma DecodeBound(raw: u16)
    ensures -33_554_432_000 <= Decode(raw) <= 33_554_432_000
  {
    DecodeBoundBy(raw, 15);
    assert Pow2(15) == 32768;
  }

  /**
   * The scaled mantissa always fits a C int, and so does the reading when the
   * exponent is at most 11; with exponents 12..15 it need not (see `DecodeAsBuilt`).
   */
  lemma DecodeFitsInt32(raw: u16)
    ensures InInt32(Significand(raw) * 1000)
    ensures Exponent(raw) <= 11 ==> InInt32(Decode(raw))
  {
    if Exponent(raw) <= 11 {
      DecodeBoundBy(raw, 11);
      assert Pow2(11) == 2048;
    }
  }

  /**
   * An error code in [-1024, -1] pushed through `(u16)` lands in exponent -1
   * with the code itself as mantissa, so it decodes to the bumped code times 500:
   * negative for -2 and below, but 0 for -1.
   */
  lemma ErrorCodeDecode(err: int)
    requires -1024 <= err <= -1
    ensures Decode(ToU16(err)) == BumpOdd(err) * 500
    ensures err <= -2 ==> Decode(ToU16(err)) < 0
  {
    var raw := ToU16(err);
    assert raw == 0x1_0000 + err;
    assert raw / 2048 == 31;
    assert Exponent(raw) == -1;
    assert raw % 2048 == 2048 + err;
    assert Mantissa(raw) == err;
    var y := BumpOdd(err) * 1000;
    var r := Decode(raw);
    assert r * 2 <= y < (r + 1) * 2;
  }

  /** Worked values, including the exponent sign wrap-around. */
  lemma DecodeExamples()
    ensures Exponent(16 * 2048) == -16 && Exponent(31 * 2048) == -1 && Exponent(15 * 2048) == 15
    ensures Decode(0x0000) == 0
    ensures Decode(0x0001) == 2000
    ensures Decode(0xFFFF) == 0
    ensures Decode(0x03FF) == 1_024_000
    ensures Decode(0xD300) == 12_000
  {
    assert Pow2(6) == 64;
    assert Decode(0xD300) * 64 <= 768_000 < (Decode(0xD300) + 1) * 64;
    assert Decode(0xFFFF) * 2 <= 0 < (Decode(0xFFFF) + 1) * 2;
  }

  /** The C conversion of an out-of-range int to a 32-bit int: two's-complement wrap-around. */
  function Wrap32(x: int): (r: int)
    ensures InInt32(r)
    ensures (r - x) % 0x1_0000_0000 == 0
    ensures InInt32(x) ==> r == x
  {
    (x - Int32Min) % 0x1_0000_0000 + Int32Min
  }

  /**
   * decode_corsair_float as built: the kernel compiles with wrapping signed
   * arithmetic, so `fraction << exponent` keeps only the low 32 bits.
   */
  function DecodeAsBuilt(raw: u16): (r: int)
    ensures InInt32(r)
    ensures (r - Decode(raw)) % 0x1_0000_0000 == 0
    ensures Exponent(raw) <= 11 ==> r == Decode(raw)
  {
    DecodeFitsInt32(raw);
    Wrap32(Decode(raw))
  }

  /** With exponent 12 and the largest mantissa, the C result wraps to a negative number. */
  lemma DecodeAsBuiltSignFlip()
    ensures Exponent(0x63FF) == 12 && Mantissa(0x63FF) == 1023
    ensures Decode(0x63FF) == 4_194_304_000
    ensures DecodeAsBuilt(0x63FF) == -100_663_296
  {
    assert Pow2(12) == 4096;
  }
}

=== FILE: rails.dfy ===
/**
 * The rail table: for each of the four monitored rails, the sensor to switch
 * to before reading (or none), the signal command for each measurement, and
 * a short label. Built once when the device is attached.
 */
module Rails {

  const NumRails := 4
  const LabelLength := 8

  // hxi_sensor_id: the argument of the rail-select command.
  const Sensor12V := 0x0
  const Sensor5V := 0x1
  const Sensor3V := 0x2
  /** No rail-select command is sent before the read. */
  const Unswitched := 0xFE

  // hxi_sensor_cmd: the signal codes of the read command.
  const SigVolts := 0x8B
  const SigWallVolts := 0x88
  const SigAmps := 0x8C
  const SigTemperature1 := 0x8D
  const SigTemperature2 := 0x8E
  const SigWatts := 0x96
  const SigTotalWatts := 0xEE

  /**
   * A rail; `name` is its 8-byte label array. Sensor and commands are C enums,
   * so any int can sit in them (zeroed memory gives 0).
   */
  datatype Rail = Rail(sensor: int, voltCmd: int, ampCmd: int, powerCmd: int, name: seq<char>)

  predicate NoNul(s: seq<char>) {
    forall i :: 0 <= i < |s| ==> s[i] != '\0'
  }

  /**
   * strncpy into an `n`-byte array from a string literal (given without its
   * terminator): the string, cut at `n`, then NUL padding up to `n`.
   */
  function StrNCpy(src: seq<char>, n: nat): (r: seq<char>)
    requires NoNul(src)
    ensures |r| == n
    ensures forall i :: 0 <= i < n ==> r[i] == if i < |src| then src[i] else '\0'
  {
    if |src| >= n then src[..n] else src + seq(n - |src|, _ => '\0')
  }

  /** The C string held in a char array: everything before the first NUL. */
  function CString(a: seq<char>): (s: seq<char>)
    ensures NoNul(s) && |s| <= |a|
  {
    if |a| == 0 || a[0] == '\0' then [] else [a[0]] + CString(a[1..])
  }

  lemma {:induction false} CStringOfTerminated(s: seq<char>, rest: seq<char>)
    requires NoNul(s) && |rest| > 0 && rest[0] == '\0'
    ensures CString(s + rest) == s
  {
    if |s| > 0 {
      assert (s + rest)[1..] == s[1..] + rest;
      CStringOfTerminated(s[1..], rest);
    } else {
      assert s + rest == rest;
    }
  }

  /** A label shorter than the array reads back unchanged; longer ones would lose their terminator. */
  lemma LabelRoundTrip(src: seq<char>, n: nat)
    requires NoNul(src) && |src| < n
    ensures CString(StrNCpy(src, n)) == src
  {
    CStringOfTerminated(src, seq(n - |src|, _ => '\0'));
  }

  /** A rail of the zero-filled device structure. */
  function ZeroRail(): Rail {
    Rail(0, 0, 0, 0, seq(LabelLength, _ => '\0'))
  }

  /**
   * The table the probe routine leaves behind: the DC rails select sensors
   * 0..2 and use the DC commands; the wall rail is unswitched, with its own
   * voltage and power commands and no current command; every label is an
   * 8-byte array whose C string is the rail's name.
   */
  function RailTable(): (t: seq<Rail>)
    ensures |t| == NumRails
    ensures forall i :: 0 <= i < NumRails - 1 ==>
              t[i].sensor == i && t[i].voltCmd == SigVolts &&
              t[i].ampCmd == SigAmps && t[i].powerCmd == SigWatts
    ensures t[3].sensor == Unswitched && t[3].voltCmd == SigWallVolts &&
            t[3].ampCmd == 0 && t[3].powerCmd == SigTotalWatts
    ensures forall i :: 0 <= i < NumRails ==> |t[i].name| == LabelLength
    ensures CString(t[0].name) == "12V" && CString(t[1].name) == "5V"
    ensures CString(t[2].name) == "3V" && CString(t[3].name) == "Wall"
  {
    LabelRoundTrip("12V", LabelLength);
    LabelRoundTrip("5V", LabelLength);
    LabelRoundTrip("3V", LabelLength);
    LabelRoundTrip("Wall", LabelLength);
    [ Rail(Sensor12V, SigVolts, SigAmps, SigWatts, StrNCpy("12V", LabelLength)),
      Rail(Sensor5V, SigVolts, SigAmps, SigWatts, StrNCpy("5V", LabelLength)),
      Rail(Sensor3V, SigVolts, SigAmps, SigWatts, StrNCpy("3V", LabelLength)),
      Rail(Unswitched, SigWallVolts, 0, SigTotalWatts, StrNCpy("Wall", LabelLength)) ]
  }

  /**
   * The rail initialisation in hxi_probe: starting from zeroed memory, the
   * three DC rails get the DC commands in a loop, then the sensors, the wall
   * rail's own commands (its current command stays 0) and the labels.
   */
  method InitRails() returns (rails: seq<Rail>)
    ensures |rails| == NumRails
    ensures forall i :: 0 <= i < NumRails - 1 ==>
              rails[i].sensor == i && rails[i].voltCmd == SigVolts &&
              rails[i].ampCmd == SigAmps && rails[i].powerCmd == SigWatts
    ensures rails[3].sensor == Unswitched && rails[3].voltCmd == SigWallVolts &&
            rails[3].ampCmd == 0 && rails[3].powerCmd == SigTotalWatts
    ensures forall i :: 0 <= i < NumRails ==> |rails[i].name| == LabelLength
    ensures CString(rails[0].name) == "12V" && CString(rails[1].name) == "5V"
    ensures CString(rails[2].name) == "3V" && CString(rails[3].name) == "Wall"
    ensures rails == RailTable()
  {
    rails := seq(NumRails, _ => ZeroRail());
    var i := 0;
    while i < NumRails - 1
      invariant 0 <= i <= NumRails - 1
      invariant |rails| == NumRails
      invariant forall j :: 0 <= j < i ==>
                  rails[j] == ZeroRail().(voltCmd := SigVolts, ampCmd := SigAmps, powerCmd := SigWatts)
      invariant forall j :: i <= j < NumRails ==> rails[j] == ZeroRail()
    {
      rails := rails[i := rails[i].(voltCmd := SigVolts, ampCmd := SigAmps, powerCmd := SigWatts)];
      i := i + 1;
    }
    rails := rails[0 := rails[0].(sensor := Sensor12V)];
    rails := rails[1 := rails[1].(sensor := Sensor5V)];
    rails := rails[2 := rails[2].(sensor := Sensor3V)];
    rails := rails[3 := rails[3].(sensor := Unswitched)];
    rails := rails[3 := rails[3].(voltCmd := SigWallVolts)];
    rails := rails[3 := rails[3].(powerCmd := SigTotalWatts)];

    rails := rails[0 := rails[0].(name := StrNCpy("12V", LabelLength))];
    rails := rails[1 := rails[1].(name := StrNCpy("5V", LabelLength))];
    rails := rails[2 := rails[2].(name := StrNCpy("3V", LabelLength))];
    rails := rails[3 := rails[3].(name := StrNCpy("Wall", LabelLength))];

    LabelRoundTrip("12V", LabelLength);
    LabelRoundTrip("5V", LabelLength);
    LabelRoundTrip("3V", LabelLength);
    LabelRoundTrip("Wall", LabelLength);
  }

  /** Exactly one rail is unswitched, the last; the DC rails select distinct sensors. */
  lemma RailTableIntegrity()
    ensures forall i :: 0 <= i < NumRails ==> (RailTable()[i].sensor == Unswitched <==> i == NumRails - 1)
    ensures forall i, j :: 0 <= i < j < NumRails ==> RailTable()[i].sensor != RailTable()[j].sensor
    ensures forall i :: 0 <= i < NumRails ==> |CString(RailTable()[i].name)| < LabelLength
  {
    LabelRoundTrip("12V", LabelLength);
    LabelRoundTrip("5V", LabelLength);
    LabelRoundTrip("3V", LabelLength);
    LabelRoundTrip("Wall", LabelLength);
  }
}

=== FILE: sensors.dfy ===
/**
 * Measurement reads over the transport: the temperature read, and the
 * rail-switched read of voltage, current and power, with the device lock held
 * across both of its commands (so its commands are adjacent in the trace).
 */
module Sensors {
  import opened Errno
  import opened Linear11
  import opened Transport
  import opened Rails

  /** What a read leaves behind: the session, the commands sent (in order), and the C return value. */
  datatype Reading = Reading(session: Session, trace: seq<Command>, value: int)

  /** The intermediate state of get_data: the session, the commands so far, and `ret`. */
  datatype Step = Step(session: Session, trace: seq<Command>, ret: int)

  const SelectRail: u8 := 0x02
  const ReadSignal: u8 := 0x03

  predicate Switched(sensor: int) {
    sensor == Sensor12V || sensor == Sensor5V || sensor == Sensor3V
  }

  /** The signal codes get_data sends; any other code is refused. */
  predicate Accepted(sig: int) {
    sig == SigVolts || sig == SigAmps || sig == SigWatts || sig == SigTotalWatts || sig == SigWallVolts
  }

  function SelectCommand(sensor: int): Command
    requires Switched(sensor)
  {
    Command(SelectRail, 0x00, sensor)
  }

  function ReadCommand(sig: u8): Command {
    Command(ReadSignal, sig, 0x00)
  }

  /** The 16-bit value `(hi << 8) + lo` of two buffer bytes. */
  function Word(hi: u8, lo: u8): (w: u16)
    ensures w / 256 == hi && w % 256 == lo
  {
    hi * 256 + lo
  }

  /**
   * Byte `i` (2 or 3) of the buffer after a read command got `report` as its
   * reply: the report's byte if it was that long, else the frame's zero byte.
   */
  function ReplyByte(report: seq<u8>, i: nat): u8
    requires i == 2 || i == 3
  {
    if i < |report| then report[i] else 0
  }

  lemma ReplyBytes(s: Session, c: Command, x: Exchange, i: nat)
    requires Succeeds(x) && c.b2 == 0 && (i == 2 || i == 3)
    ensures SendUsbCmd(s, c, x).0.buffer[i] == ReplyByte(x.wait.report, i)
  {
    var b := SendUsbCmd(s, c, x).0.buffer;
    if i < |x.wait.report| {
      assert i < Copied(|x.wait.report|);
    } else {
      assert b[i] == Frame(c)[i];
    }
  }

  /** After a read command that succeeded, bytes 2 and 3 of the buffer are the reply's. */
  lemma ReadReply(s: Session, sig: u8, x: Exchange)
    ensures Succeeds(x) ==>
              SendUsbCmd(s, ReadCommand(sig), x).0.buffer[2] == ReplyByte(x.wait.report, 2) &&
              SendUsbCmd(s, ReadCommand(sig), x).0.buffer[3] == ReplyByte(x.wait.report, 3)
  {
    if Succeeds(x) {
      ReplyBytes(s, ReadCommand(sig), x, 2);
      ReplyBytes(s, ReadCommand(sig), x, 3);
    }
  }

  /**
   * get_temperature: one read command, 0x8E for channel 1 and 0x8D for any
   * other; -ENODATA if it fails, else the big-endian word in bytes 2 and 3.
   */
  function GetTemperature(s: Session, channel: int, read: Exchange): (r: Reading)
    ensures r.trace == [ReadCommand(if channel == 1 then SigTemperature2 else SigTemperature1)]
    ensures r.value == -ENODATA <==> !Succeeds(read)
    ensures Succeeds(read) ==>
              0 <= r.value < 0x1_0000 &&
              r.value == Word(ReplyByte(read.wait.report, 2), ReplyByte(read.wait.report, 3))
  {
    var sig := if channel == 1 then SigTemperature2 else SigTemperature1;
    var (s1, ret) := SendUsbCmd(s, ReadCommand(sig), read);
    ReadReply(s, sig, read);
    if ret != 0 then Reading(s1, [ReadCommand(sig)], -ENODATA)
    else Reading(s1, [ReadCommand(sig)], Word(s1.buffer[2], s1.buffer[3]))
  }

  /** The first switch of get_data: select a DC rail, nothing for the wall rail, refuse the rest. */
  function SelectStep(s: Session, sensor: int, select: Exchange): (r: Step)
    ensures Switched(sensor) ==> r.trace == [SelectCommand(sensor)] && (r.ret == 0 <==> Succeeds(select))
    ensures Switched(sensor) && select.sendResult < 0 ==> r.ret == select.sendResult
    ensures Switched(sensor) && select.sendResult >= 0 && select.wait.TimedOut? ==> r.ret == -ETIMEDOUT
    ensures !Switched(sensor) ==> r.trace == [] && r.session == s
    ensures sensor == Unswitched ==> r.ret == 0
    ensures !Switched(sensor) && sensor != Unswitched ==> r.ret == -EOPNOTSUPP
  {
    if Switched(sensor) then
      var (s1, ret) := SendUsbCmd(s, SelectCommand(sensor), select);
      Step(s1, [SelectCommand(sensor)], ret)
    else if sensor == Unswitched then Step(s, [], 0)
    else Step(s, [], -EOPNOTSUPP)
  }

  /** The second switch of get_data: send the read for an accepted signal, -1 for any other. */
  function SignalStep(s: Session, sig: int, read: Exchange): (r: Step)
    ensures Accepted(sig) ==> r.trace == [ReadCommand(sig)] && (r.ret == 0 <==> Succeeds(read))
    ensures Accepted(sig) && read.sendResult < 0 ==> r.ret == read.sendResult
    ensures Accepted(sig) && read.sendResult >= 0 && read.wait.TimedOut? ==> r.ret == -ETIMEDOUT
    ensures !Accepted(sig) ==> r.trace == [] && r.ret == -1
    ensures Accepted(sig) && Succeeds(read) ==>
              r.session.buffer[2] == ReplyByte(read.wait.report, 2) &&
              r.session.buffer[3] == ReplyByte(read.wait.report, 3)
  {
    if Accepted(sig) then
      var (s1, ret) := SendUsbCmd(s, ReadCommand(sig), read);
      ReadReply(s, sig, read);
      Step(s1, [ReadCommand(sig)], ret)
    else Step(s, [], -1)
  }

  /** Whether get_data gets as far as sending its read command. */
  predicate ReadIssued(sensor: int, sig: int, select: Exchange) {
    (sensor == Unswitched || (Switched(sensor) && Succeeds(select))) && Accepted(sig)
  }

  /**
   * A send result that get_data's error path, which decodes the error code,
   * still turns into a negative value: success, or an error from -2 down to
   * -1024. Errors -1 and below -1024 are excluded.
   */
  predicate DecodesNegative(x: Exchange) {
    x.sendResult >= 0 || -1024 <= x.sendResult <= -2
  }

  /**
   * get_data: optional rail select, then the signal read, then the
   * little-endian word of bytes 2 and 3, decoded. On failure the error code
   * itself is cast to u16 and decoded, as the shared exit path does.
   */
  function GetData(s: Session, sensor: int, sig: int, select: Exchange, read: Exchange): (r: Reading)
    ensures Switched(sensor) ==> |r.trace| >= 1 && r.trace[0] == SelectCommand(sensor)
    ensures |r.trace| == (if Switched(sensor) then 1 else 0) + (if ReadIssued(sensor, sig, select) then 1 else 0)
    ensures ReadIssued(sensor, sig, select) ==> r.trace[|r.trace| - 1] == ReadCommand(sig)
    ensures ReadIssued(sensor, sig, select) && Succeeds(read) ==>
              r.value == Decode(Word(ReplyByte(read.wait.report, 3), ReplyByte(read.wait.report, 2)))
    ensures (&& !(ReadIssued(sensor, sig, select) && Succeeds(read))
             && Accepted(sig) && DecodesNegative(select) && DecodesNegative(read))
            ==> r.value < 0
    ensures (sensor == Unswitched || (Switched(sensor) && Succeeds(select))) && !Accepted(sig) ==> r.value == 0
    ensures Switched(sensor) && !Succeeds(select) ==> r.value == Decode(ToU16(Status(select)))
    ensures !Switched(sensor) && sensor != Unswitched ==> r.value == Decode(ToU16(-EOPNOTSUPP))
    ensures ReadIssued(sensor, sig, select) && !Succeeds(read) ==> r.value == Decode(ToU16(Status(read)))
    ensures -33_554_432_000 <= r.value <= 33_554_432_000
  {
    var first := SelectStep(s, sensor, select);
    if first.ret != 0 then
      ErrorDecodes(first.ret);
      DecodeBound(ToU16(first.ret));
      Reading(first.session, first.trace, Decode(ToU16(first.ret)))
    else
      var second := SignalStep(first.session, sig, read);
      if second.ret != 0 then
        ErrorDecodes(second.ret);
        DecodeBound(ToU16(second.ret));
        Reading(second.session, first.trace + second.trace, Decode(ToU16(second.ret)))
      else
        var b := second.session.buffer;
        DecodeBound(Word(b[3], b[2]));
        Reading(second.session, first.trace + second.trace, Decode(Word(b[3], b[2])))
  }

  lemma ErrorDecodes(err: int)
    ensures -1024 <= err <= -2 ==> Decode(ToU16(err)) < 0
    ensures err == -1 ==> Decode(ToU16(err)) == 0
  {
    if -1024 <= err <= -1 {
      ErrorCodeDecode(err);
    }
  }
}

=== FILE: transport.dfy ===
/**
 * The command/response transport: one 63-byte buffer per device, used both for
 * the outbound report and for the device's reply, and a completion flag. The
 * flag filters reports only while it is set: from the `complete()` of the
 * first reply until the waiter consumes it. Once the waiter has woken, or a
 * wait has timed out, the flag is clear and the next report, wanted or not,
 * is copied into the buffer.
 *
 * The session is a value threaded through the steps. The two things the
 * driver cannot decide itself -- what the send primitive returns and whether a
 * report arrives before the 300 ms timeout -- are inputs (`Exchange`).
 */
module Transport {
  import opened Errno

  /** An unsigned 8-bit C value. */
  type u8 = x: int | 0 <= x < 0x100

  const OutBufferSize := 63
  const InBufferSize := 16

  type Buffer = b: seq<u8> | |b| == OutBufferSize witness seq(OutBufferSize, _ => 0)

  /** A command as it goes on the wire: the command byte and two argument bytes. */
  datatype Command = Command(code: u8, b1: u8, b2: u8)

  /**
   * The device's per-attachment state: the shared buffer and whether the
   * completion has fired and not yet been consumed by a waiter.
   */
  datatype Session = Session(buffer: Buffer, done: bool)

  /** How a wait ends: the first report the input hook saw, or the timeout. */
  datatype WaitOutcome = Completed(report: seq<u8>) | TimedOut

  /** The environment's side of one command: the send result and the wait outcome. */
  datatype Exchange = Exchange(sendResult: int, wait: WaitOutcome)

  predicate Succeeds(x: Exchange) {
    x.sendResult >= 0 && x.wait.Completed?
  }

  function Min(a: int, b: int): int {
    if a < b then a else b
  }

  /** The number of bytes a report of `size` bytes puts into the buffer. */
  function Copied(size: nat): (n: nat)
    ensures n <= InBufferSize && n <= size
    ensures n == size || n == InBufferSize
  {
    Min(InBufferSize, size)
  }

  /** The outbound report send_usb_cmd builds: a zeroed buffer with the command in bytes 0..2. */
  function Frame(c: Command): (b: Buffer)
    ensures b[0] == c.code && b[1] == c.b1 && b[2] == c.b2
    ensures forall i :: 3 <= i < OutBufferSize ==> b[i] == 0
  {
    [c.code, c.b1, c.b2] + seq(OutBufferSize - 3, _ => 0)
  }

  /** How the device reads a report: the command and its two arguments. */
  function ParseFrame(b: Buffer): Command {
    Command(b[0], b[1], b[2])
  }

  predicate PaddingZero(b: Buffer) {
    forall i :: 3 <= i < OutBufferSize ==> b[i] == 0
  }

  /** Framing loses nothing, and a buffer is a frame exactly when its padding is zero. */
  lemma FrameRoundTrip(c: Command, b: Buffer)
    ensures ParseFrame(Frame(c)) == c
    ensures Frame(ParseFrame(b)) == b <==> PaddingZero(b)
  {
    if PaddingZero(b) {
      assert forall i :: 0 <= i < OutBufferSize ==> Frame(ParseFrame(b))[i] == b[i];
    }
  }

  /**
   * hxi_raw_event: a report is copied (at most 16 bytes of it) and completes
   * the wait only while the completion is clear; while it is set, it is dropped.
   * The hook always reports success.
   */
  function RawEvent(s: Session, data: seq<u8>): (r: (Session, int))
    ensures r.1 == 0
    ensures s.done ==> r.0 == s
    ensures !s.done ==> r.0.done
    ensures !s.done ==> forall i :: 0 <= i < Copied(|data|) ==> r.0.buffer[i] == data[i]
    ensures forall i :: Copied(|data|) <= i < OutBufferSize ==> r.0.buffer[i] == s.buffer[i]
  {
    if s.done then (s, 0)
    else
      var n := Copied(|data|);
      (Session(data[..n] + s.buffer[n..], true), 0)
  }

  /** Reports arriving one after another at the input hook. */
  function DeliverAll(s: Session, reports: seq<seq<u8>>): Session
    decreases |reports|
  {
    if |reports| == 0 then s else DeliverAll(RawEvent(s, reports[0]).0, reports[1..])
  }

  /**
   * Of reports reaching the hook back to back, with no waiter consuming the
   * completion in between, only the first reaches the buffer; once the
   * completion has fired, every further report is dropped.
   */
  lemma {:induction false} FirstReportWins(s: Session, reports: seq<seq<u8>>)
    ensures s.done ==> DeliverAll(s, reports) == s
    ensures !s.done && |reports| > 0 ==> DeliverAll(s, reports) == RawEvent(s, reports[0]).0
  {
    if s.done {
      DroppedWhenDone(s, reports);
    } else if |reports| > 0 {
      DroppedWhenDone(RawEvent(s, reports[0]).0, reports[1..]);
    }
  }

  lemma {:induction false} DroppedWhenDone(s: Session, reports: seq<seq<u8>>)
    requires s.done
    ensures DeliverAll(s, reports) == s
    decreases |reports|
  {
    if |reports| > 0 {
      DroppedWhenDone(RawEvent(s, reports[0]).0, reports[1..]);
    }
  }

  /** The value send_usb_cmd returns for an exchange: the send error, -ETIMEDOUT, or 0. */
  function Status(x: Exchange): (ret: int)
    ensures ret <= 0
    ensures ret == 0 <==> Succeeds(x)
  {
    if x.sendResult < 0 then x.sendResult
    else if x.wait.TimedOut? then -ETIMEDOUT
    else 0
  }

  /**
   * send_usb_cmd: zero the buffer, write the command, reset the completion,
   * send; a failed send is returned as is, without waiting; otherwise the
   * result is 0 if a report completes the wait and -ETIMEDOUT if none does.
   * A successful wait consumes the completion, so the flag is clear whatever
   * the outcome.
   */
  function SendUsbCmd(s: Session, c: Command, x: Exchange): (r: (Session, int))
    ensures r.1 == 0 <==> Succeeds(x)
    ensures x.sendResult < 0 ==> r.1 == x.sendResult
    ensures x.sendResult >= 0 && x.wait.TimedOut? ==> r.1 == -ETIMEDOUT
    ensures !r.0.done
    ensures Succeeds(x) ==>
              forall i :: 0 <= i < Copied(|x.wait.report|) ==> r.0.buffer[i] == x.wait.report[i]
    ensures Succeeds(x) ==>
              forall i :: Copied(|x.wait.report|) <= i < OutBufferSize ==> r.0.buffer[i] == Frame(c)[i]
    ensures !Succeeds(x) ==> r.0.buffer == Frame(c)
  {
    var armed := Session(Frame(c), false);
    if x.sendResult < 0 then (armed, x.sendResult)
    else
      match x.wait
      case TimedOut => (armed, -ETIMEDOUT)
      case Completed(report) => (RawEvent(armed, report).0.(done := false), 0)
  }

  /**
   * Nothing from before a command survives it: neither stale buffer bytes
   * nor a completion left over from an earlier reply or a stray report.
   * In particular a timed-out command leaves the session fully usable.
   */
  lemma SendForgetsHistory(s1: Session, s2: Session, reports: seq<seq<u8>>, c: Command, x: Exchange)
    ensures SendUsbCmd(s1, c, x) == SendUsbCmd(s2, c, x)
    ensures SendUsbCmd(DeliverAll(s1, reports), c, x) == SendUsbCmd(s1, c, x)
  {
  }

  /**
   * After a timeout the completion has not fired, so a late reply is still
   * copied into the buffer and completes it; the next command wipes both.
   */
  lemma LateReplyAfterTimeout(s: Session, c: Command, sendResult: int, late: seq<u8>)
    requires sendResult >= 0 && |late| > 0
    ensures var t := SendUsbCmd(s, c, Exchange(sendResult, TimedOut)).0;
            !t.done && RawEvent(t, late).0.done && RawEvent(t, late).0.buffer[0] == late[0]
  {
  }

  /**
   * After a successful command the waiter has consumed the completion, so the
   * next report -- a duplicate reply, or one meant for another user of the
   * device -- is copied over the reply and completes the flag again.
   */
  lemma ReportAfterSuccessIsCopied(s: Session, c: Command, sendResult: int, reply: seq<u8>, next: seq<u8>)
    requires sendResult >= 0 && |next| > 0
    ensures var t := SendUsbCmd(s, c, Exchange(sendResult, Completed(reply))).0;
            !t.done && RawEvent(t, next).0.done && RawEvent(t, next).0.buffer[0] == next[0]
  {
  }
}
